=== FILE: README.md ===
# Dolphin mapping button, modelled in Dafny

This project models the mapping button of Dolphin's controller
configuration dialog (`MappingButton.cpp`). A mapping button shows one
control reference of an emulated controller. A control reference holds an
expression that names physical device controls, a range (scale factor) and a
fixed input/output kind. The user works the button with the mouse:

- a primary click detects an input, or opens the advanced editor for an output;
- a middle click clears the binding;
- a right click opens the advanced editor.

A periodic refresh makes the label bold while the bound input is pressed.

The model has two parts:

- `display_text.dfy`, module `DisplayText`: the pure transform from an
  expression to the button label. Every `&` is doubled, so that Qt does not
  take it for an accelerator marker, and every backtick is removed. The two
  `QString::replace` calls of the source are modelled by `Replace`. The model
  proves them equal to an independent character-by-character definition
  (`Escape`). It also proves that the two replacements commute, that
  undoubling the label gives back the expression without backticks, and
  where each character ends up in the label.
- `mapping_button.dfy`, module `Mapping`: the gesture handlers as methods on
  a `MappingButton` class. The class holds the shared `ControlReference`
  object, the label text, the bold flag and an effect trace. Collaborators
  the button calls but whose code is not part of this model become
  parameters or trace entries:
  - `MappingCommon::DetectExpression` becomes the `detected` parameter. The
    `Detect` entry records the candidate devices and the default device it
    was given.
  - `IOWindow` becomes the `EditorOutcome` parameter (the expression and range
    it leaves behind) and an `OpenEditor` entry.
  - `UpdateSingleControlReference` and `SaveSettings` become `Resolve` and
    `Save` entries. Each entry carries the reference as that call observed
    it, so the order of these calls is stated with its data.
  - The "map all devices" flag, the default device and
    `GetAllDeviceStrings` become the `Environment` parameter.
  - `isActiveWindow()`, the sampled `State()` and the parent font's boldness
    become parameters of `UpdateIndicator`.

`ConfigChanged` is modelled as the button's own method. Besides setting the
label, it appends a `Notify` entry carrying that label, so the trace orders
it against `Resolve` and `Save`.

Two details of the source that the contracts state:

- `Clear` saves before it notifies (`MappingButton.cpp:126-127`), while
  `Clicked` and `AdvancedPressed` notify before they save (`MappingButton.cpp:115-116`
  and `80-81`).
- `UpdateIndicator` does not look at the reference's kind. Only the
  `indicator` constructor argument decides whether it is wired to the
  periodic refresh (`MappingButton.cpp:68-69`).

`ACTIVATION_THRESHOLD` is `ControllerEmu::Buttons::ACTIVATION_THRESHOLD`,
which is 0.5. `InputCommon/ControllerEmu/ControlGroup/Buttons.h` is not part
of this model.

## Model

| member | source | states |
|---|---|---|
| DisplayText.Replace | Source/Core/DolphinQt/Config/Mapping/MappingButton.cpp:35-36 | `QString::replace(QChar, QString)`: the result's length grows by `|w| - 1` per occurrence of `c`. Every character of the result is either a character of the input other than `c` or a character of the replacement. |
| DisplayText.ReplaceAppend | Source/Core/DolphinQt/Config/Mapping/MappingButton.cpp:35-36 | Replacing works piecewise: replacing in `a + b` is replacing in `a` followed by replacing in `b`. |
| DisplayText.ReplaceAbsent | Source/Core/DolphinQt/Config/Mapping/MappingButton.cpp:36 | A string that does not contain the replaced character is returned unchanged. |
| DisplayText.EscapeChar | Source/Core/DolphinQt/Config/Mapping/MappingButton.cpp:32-37 | One character's label: `&` becomes `&&`, and a backtick becomes nothing. Any other character stays itself. In each case the converse also holds. |
| DisplayText.Escape | Source/Core/DolphinQt/Config/Mapping/MappingButton.cpp:32-37 | The per-character reference label contains no backtick. Its length is the input length plus the number of `&` minus the number of backticks. It holds exactly twice as many `&` as the input. |
| DisplayText.ReplaceChainIsEscape | Source/Core/DolphinQt/Config/Mapping/MappingButton.cpp:35-36 | The source's chain (double `&`, then drop backticks) equals the per-character label on every input. |
| DisplayText.ToDisplayString | Source/Core/DolphinQt/Config/Mapping/MappingButton.cpp:33-37 | The label equals the per-character transform `Escape`. It contains no backtick and holds twice as many `&` as the expression. |
| DisplayText.ReplacementsCommute | Source/Core/DolphinQt/Config/Mapping/MappingButton.cpp:35-36 | Dropping backticks first and doubling `&` second gives the same label. Neither replacement introduces the other's character: doubling `&` adds no backtick, and dropping backticks adds no `&`. |
| DisplayText.DisplayAppend | Source/Core/DolphinQt/Config/Mapping/MappingButton.cpp:33-37 | The label of a concatenation is the concatenation of the labels. |
| DisplayText.DisplayAt | Source/Core/DolphinQt/Config/Mapping/MappingButton.cpp:35-36 | Each character `i` of the expression appears in the label as its `EscapeChar` image. That image starts where the label of the prefix before `i` ends. |
| DisplayText.AmpersandDoubled | Source/Core/DolphinQt/Config/Mapping/MappingButton.cpp:35 | Every `&` of the expression appears as `&&` at its position in the label. |
| DisplayText.UnescapeDisplay | Source/Core/DolphinQt/Config/Mapping/MappingButton.cpp:33-37 | Round trip: collapsing each `&&` of the label to `&` gives the expression with its backticks removed. |
| DisplayText.DisplayInjective | Source/Core/DolphinQt/Config/Mapping/MappingButton.cpp:33-37 | Two backtick-free expressions with the same label are equal. |
| DisplayText.DisplayEmpty | Source/Core/DolphinQt/Config/Mapping/MappingButton.cpp:33-37 | The label is empty if and only if the expression consists of backticks only. |
| Mapping.MappingButton.constructor | Source/Core/DolphinQt/Config/Mapping/MappingButton.cpp:44-46 | A new button holds the given reference and shows that reference's label. It starts with the given font boldness and an empty trace. |
| Mapping.MappingButton.ConfigChanged | Source/Core/DolphinQt/Config/Mapping/MappingButton.cpp:145-148 | Afterwards the text equals `ToDisplayString` of the current expression. One `Notify` carrying that text is recorded. The reference and the font are unchanged. |
| Mapping.MappingButton.AdvancedPressed | Source/Core/DolphinQt/Config/Mapping/MappingButton.cpp:74-82 | The editor opens with the reference's kind. Whatever the editor left in the reference is kept. Then the button notifies with the new label and saves that reference, in that order. |
| Mapping.MappingButton.Clicked | Source/Core/DolphinQt/Config/Mapping/MappingButton.cpp:84-117 | Through `ClickedFrom`: an output reference takes the advanced-editor path and is never detected. An input reference is detected over all device strings when "map all devices" is on, and otherwise over only the default device. An empty result leaves the reference and the label unchanged and records nothing after the detection. A non-empty result becomes the expression, and the range is kept. Then the button re-resolves, notifies and saves, in that order. |
| Mapping.MappingButton.Clear | Source/Core/DolphinQt/Config/Mapping/MappingButton.cpp:119-128 | The range becomes 100.0 / 100 = 1 and the expression becomes empty, so the label is empty. Then the button re-resolves, saves and notifies, in that order. The resulting reference does not depend on the previous one, so clearing twice leaves the same reference as clearing once. |
| Mapping.MappingButton.ClearTwice | Source/Core/DolphinQt/Config/Mapping/MappingButton.cpp:119-128 | Idempotence: after the first clear and again after the second, the expression is empty, the range is 1 and the label is empty, so the second clear leaves the state as the first did. The trace holds the resolve, save and notify sequence twice. |
| Mapping.MappingButton.UpdateIndicator | Source/Core/DolphinQt/Config/Mapping/MappingButton.cpp:130-143 | In an inactive window, nothing is sampled and nothing changes. Otherwise the state is sampled once. The font becomes bold if and only if the state is above `ACTIVATION_THRESHOLD` or the parent's font is bold. The label never changes. |
| Mapping.MappingButton.MouseReleaseEvent | Source/Core/DolphinQt/Config/Mapping/MappingButton.cpp:150-163 | A middle release has exactly `Clear`'s effect, and a right release has exactly `AdvancedPressed`'s effect. A left release reaches the default handler. When that handler emits `clicked` (line 66 wires it to `Clicked`), exactly `Clicked`'s effect follows the `DefaultRelease` entry. Otherwise, and for any other button, only the default handler runs: the reference and the label stay unchanged. |

## Left out

- Widget construction: fixed height and width, the size policy, the tooltips, and the `connect` calls that wire `clicked`, `Update` and `ConfigChanged` (`MappingButton.cpp:48-71`). These are layout and signal wiring with no state of the model.
- `MappingButton.IsInput`: a one-line delegation to the reference's fixed kind. It is a predicate with no contract of its own, and `Clicked` uses it.
- `MappingCommon::DetectExpression` is not part of this model. Its sampling, timing and debounce become the `detected` parameter. The empty string stands for a timeout or cancellation. The source passes the button itself to it (`MappingButton.cpp:98`, `104`); it is assumed to leave the button's label and the reference as it found them.
- `IOWindow` is not part of this model. Its modal dialog becomes an `EditorOutcome` parameter, which may leave any expression and range in the reference. Any re-resolution done inside the dialog is not recorded.
- `UpdateSingleControlReference` and `SaveSettings` are calls into the controller interface and into persistence. They are recorded as `Resolve` and `Save` trace entries; resolution and the settings file are not modelled.
- `GetAllDeviceStrings` is a query of the controller interface. Its answer is the `allDevices` field of the `Environment` parameter, and the call itself is not recorded.
- `ControlReference::State()` and `QFont`: the sampled state is a `real` parameter, and the font is modelled only by its bold flag. Floating-point rounding is not modelled; `100.0 / SLIDER_TICK_COUNT` is exactly 1 in both.
- `isActiveWindow()` is a boolean parameter.
- The Qt default release handler (`QPushButton::mouseReleaseEvent`) is recorded as a `DefaultRelease` entry. Qt decides whether it emits `clicked` from the press and hit-test state; that decision becomes the `clickEmitted` parameter of `MouseReleaseEvent`.
- MappingButton.constructor: the source builds the button without setting a font (`MappingButton.cpp:44-46`). The initial boldness is a parameter, `parentBold`, which assumes the button shows its parent's font. Qt's font propagation is not modelled.
- The reference is shared with the owning controller and the other widgets, which may change its expression without this button's knowledge. `InSync` is therefore established by each transaction, not kept as an object invariant.
- Expressions and labels are both sequences of Unicode characters. The UTF-8/UTF-16 conversions at `MappingButton.cpp:45`, `112` and `147` (`QString::fromStdString`, `toStdString`) are taken as the identity. That holds for valid UTF-8; invalid byte sequences, which Qt replaces with U+FFFD, are not modelled.

=== FILE: display_text.dfy ===
/**
  The text a mapping button shows for a control expression.

  Qt reads a single `&` in a button label as the marker of a keyboard
  accelerator, so the button doubles every `&`; backticks, which the
  expression language uses to quote control names, are dropped from the
  label. The source does this with two `QString::replace` calls in a row;
  this module models those calls (Replace, ToDisplayString), gives an
  independent character-by-character definition of the same transform
  (Escape), and proves the two agree, that the order of the two
  replacements does not matter, and that undoubling the `&`s gives back
  the expression with its backticks removed.
*/
module DisplayText {

  const Ampersand: char := '&'
  const Backtick: char := '`'

  /** Number of occurrences of `c` in `s`. */
  function Count(s: string, c: char): nat
  {
    if s == [] then 0 else (if s[0] == c then 1 else 0) + Count(s[1..], c)
  }

  lemma {:induction false} CountAppend(a: string, b: string, c: char)
    ensures Count(a + b, c) == Count(a, c) + Count(b, c)
  {
    if a == [] {
      assert a + b == b;
    } else {
      assert (a + b)[1..] == a[1..] + b;
      CountAppend(a[1..], b, c);
    }
  }

  /**
    `QString::replace(QChar c, const QString& w)`: every occurrence of `c`
    in `s`, scanning from the left, is replaced by `w`; the text that `w`
    inserts is not scanned again.
  */
  function Replace(s: string, c: char, w: string): (r: string)
    ensures |r| == |s| + Count(s, c) * (|w| - 1)
    ensures forall x :: x in r ==> (x in s && x != c) || x in w
  {
    if s == [] then []
    else
      var rest := Replace(s[1..], c, w);
      assert |rest| == |s| - 1 + Count(s[1..], c) * (|w| - 1);
      (if s[0] == c then w else [s[0]]) + rest
  }

  lemma {:induction false} ReplaceAppend(a: string, b: string, c: char, w: string)
    ensures Replace(a + b, c, w) == Replace(a, c, w) + Replace(b, c, w)
  {
    if a == [] {
      assert a + b == b;
    } else {
      assert (a + b)[1..] == a[1..] + b;
      ReplaceAppend(a[1..], b, c, w);
    }
  }

  /** A string in which `c` does not occur is left as it is. */
  lemma {:induction false} ReplaceAbsent(s: string, c: char, w: string)
    requires c !in s
    ensures Replace(s, c, w) == s
  {
    if s != [] {
      assert c !in s[1..];
      ReplaceAbsent(s[1..], c, w);
    }
  }

  /** What one character of an expression becomes on the label. */
  function EscapeChar(c: char): (r: string)
    ensures Backtick !in r
    ensures c == Ampersand <==> r == [Ampersand, Ampersand]
    ensures c == Backtick <==> r == []
    ensures c != Ampersand && c != Backtick <==> r == [c]
  {
    if c == Ampersand then [Ampersand, Ampersand]
    else if c == Backtick then []
    else [c]
  }

  /**
    Reference definition of the label: each character of the expression
    is replaced on its own by EscapeChar, independently of its neighbours.
  */
  function Escape(s: string): (r: string)
    ensures Backtick !in r
    ensures |r| == |s| + Count(s, Ampersand) - Count(s, Backtick)
    ensures Count(r, Ampersand) == 2 * Count(s, Ampersand)
  {
    if s == [] then []
    else
      var head, rest := EscapeChar(s[0]), Escape(s[1..]);
      CountAppend(head, rest, Ampersand);
      assert Count(head, Ampersand) == if s[0] == Ampersand then 2 else 0 by {
        if s[0] == Ampersand {
          assert head == [Ampersand] + [Ampersand];
          CountAppend([Ampersand], [Ampersand], Ampersand);
        }
      }
      head + rest
  }

  lemma {:induction false} EscapeAppend(a: string, b: string)
    ensures Escape(a + b) == Escape(a) + Escape(b)
  {
    if a == [] {
      assert a + b == b;
    } else {
      assert (a + b)[1..] == a[1..] + b;
      EscapeAppend(a[1..], b);
    }
  }

  /** The replacement chain as the source writes it equals the per-character transform. */
  lemma {:induction false} ReplaceChainIsEscape(s: string)
    ensures Replace(Replace(s, Ampersand, [Ampersand, Ampersand]), Backtick, []) == Escape(s)
  {
    if s != [] {
      var head := if s[0] == Ampersand then [Ampersand, Ampersand] else [s[0]];
      var inner := Replace(s[1..], Ampersand, [Ampersand, Ampersand]);
      assert Replace(s, Ampersand, [Ampersand, Ampersand]) == head + inner;
      ReplaceAppend(head, inner, Backtick, []);
      if s[0] == Ampersand {
        ReplaceAbsent(head, Backtick, []);
      }
      assert Replace(head, Backtick, []) == EscapeChar(s[0]);
      ReplaceChainIsEscape(s[1..]);
    }
  }

  /**
    Escape ampersands and remove ticks: the label of expression `s`.
    It is exactly the per-character transform Escape.
  */
  function ToDisplayString(s: string): (r: string)
    ensures r == Escape(s)
    ensures Backtick !in r
    ensures Count(r, Ampersand) == 2 * Count(s, Ampersand)
  {
    ReplaceChainIsEscape(s);
    Replace(Replace(s, Ampersand, [Ampersand, Ampersand]), Backtick, [])
  }

  /**
    Removing the backticks first and doubling the ampersands second gives
    the same label: neither replacement brings in the other's character.
  */
  lemma {:induction false} ReplacementsCommute(s: string)
    ensures Backtick !in s ==> Backtick !in Replace(s, Ampersand, [Ampersand, Ampersand])
    ensures Ampersand !in s ==> Ampersand !in Replace(s, Backtick, [])
    ensures Replace(Replace(s, Backtick, []), Ampersand, [Ampersand, Ampersand]) == ToDisplayString(s)
  {
    if s != [] {
      var head := if s[0] == Backtick then [] else [s[0]];
      var inner := Replace(s[1..], Backtick, []);
      assert Replace(s, Backtick, []) == head + inner;
      ReplaceAppend(head, inner, Ampersand, [Ampersand, Ampersand]);
      assert Replace(head, Ampersand, [Ampersand, Ampersand]) == EscapeChar(s[0]) by {
        if s[0] != Backtick {
          assert head[1..] == [];
        }
      }
      ReplacementsCommute(s[1..]);
      assert Escape(s) == EscapeChar(s[0]) + Escape(s[1..]);
    }
  }

  /** The label of a concatenation is the concatenation of the labels. */
  lemma DisplayAppend(a: string, b: string)
    ensures ToDisplayString(a + b) == ToDisplayString(a) + ToDisplayString(b)
  {
    EscapeAppend(a, b);
  }

  /**
    Character `i` of the expression appears on the label exactly where the
    label of the prefix before it ends: a `&` as `&&`, a backtick as
    nothing, any other character as itself.
  */
  lemma DisplayAt(s: string, i: nat)
    requires i < |s|
    ensures var p := |ToDisplayString(s[..i])|;
      var e := EscapeChar(s[i]);
      p + |e| <= |ToDisplayString(s)| && ToDisplayString(s)[p..p + |e|] == e
  {
    var a, b := s[..i], s[i + 1..];
    var e := EscapeChar(s[i]);
    assert s == a + ([s[i]] + b);
    EscapeAppend(a, [s[i]] + b);
    EscapeAppend([s[i]], b);
    assert Escape([s[i]]) == e + Escape([]);
    var r := Escape(s);
    assert r == Escape(a) + (e + Escape(b));
    assert r[|Escape(a)|..|Escape(a)| + |e|] == e;
  }

  /** Every `&` of the expression shows up doubled on the label. */
  lemma AmpersandDoubled(s: string, i: nat)
    requires i < |s| && s[i] == Ampersand
    ensures var p := |ToDisplayString(s[..i])|;
      p + 2 <= |ToDisplayString(s)| && ToDisplayString(s)[p] == Ampersand && ToDisplayString(s)[p + 1] == Ampersand
  {
    DisplayAt(s, i);
  }

  /** Reads a label back: every `&&` becomes one `&`. */
  function Unescape(s: string): (r: string)
    ensures |r| <= |s|
  {
    if s == [] then []
    else if |s| >= 2 && s[0] == Ampersand && s[1] == Ampersand then [Ampersand] + Unescape(s[2..])
    else [s[0]] + Unescape(s[1..])
  }

  /** Undoubling the label gives back the expression without its backticks. */
  lemma {:induction false} UnescapeDisplay(s: string)
    ensures Unescape(ToDisplayString(s)) == Replace(s, Backtick, [])
  {
    if s != [] {
      var rest := Escape(s[1..]);
      assert Escape(s) == EscapeChar(s[0]) + rest;
      UnescapeDisplay(s[1..]);
      assert ToDisplayString(s[1..]) == rest;
      if s[0] == Ampersand {
        assert ([Ampersand, Ampersand] + rest)[2..] == rest;
      } else if s[0] != Backtick {
        assert ([s[0]] + rest)[1..] == rest;
      } else {
        assert Escape(s) == rest;
        assert Replace(s, Backtick, []) == Replace(s[1..], Backtick, []);
      }
    }
  }

  /** Two backtick-free expressions with the same label are the same expression. */
  lemma DisplayInjective(s: string, t: string)
    requires Backtick !in s && Backtick !in t
    requires ToDisplayString(s) == ToDisplayString(t)
    ensures s == t
  {
    UnescapeDisplay(s);
    UnescapeDisplay(t);
    ReplaceAbsent(s, Backtick, []);
    ReplaceAbsent(t, Backtick, []);
  }

  /** The label is empty exactly when the expression is made of backticks only. */
  lemma {:induction false} DisplayEmpty(s: string)
    ensures ToDisplayString(s) == [] <==> forall i :: 0 <= i < |s| ==> s[i] == Backtick
  {
    if s != [] {
      assert Escape(s) == EscapeChar(s[0]) + Escape(s[1..]);
      DisplayEmpty(s[1..]);
      if forall i :: 0 <= i < |s| ==> s[i] == Backtick {
        assert forall i :: 0 <= i < |s| - 1 ==> s[1..][i] == s[i + 1];
      }
      if forall i :: 0 <= i < |s| - 1 ==> s[1..][i] == Backtick {
        if s[0] == Backtick {
          forall i | 0 <= i < |s| ensures s[i] == Backtick {
            if i > 0 { assert s[i] == s[1..][i - 1]; }
          }
        }
      }
    }
  }
}

=== FILE: mapping_button.dfy ===
/**
  The mapping button of the controller configuration dialog, as a small
  state machine over the control reference it edits.

  A button holds a non-owning reference to one ControlReference (an
  expression naming physical controls, a range and a fixed input/output
  kind) and the text it shows. Each gesture runs one transaction that may
  rewrite the reference, asks collaborators the button cannot see to
  re-resolve the reference and persist the settings, and refreshes its own
  label (ConfigChanged). Those collaborators are not modelled; each call to
  one is appended to the button's effect trace, and so is each label
  refresh, so that the contracts below can state which calls happen, in
  which order and with which data:

  - input detection gets its outcome (the detected expression) as a
    parameter, and the trace records the devices it was asked to listen to;
  - the advanced editor dialog gets its outcome (the expression and range
    it leaves in the reference) as a parameter;
  - re-resolution and saving carry a snapshot of the reference they
    observed, and a label refresh carries the label it set.
*/
module Mapping {
  import DisplayText

  /** Number of ticks of the range slider; Clear resets the range to 100 / ticks. */
  const SLIDER_TICK_COUNT: int := 100

  /** State above which a button counts as pressed (`ControllerEmu::Buttons`). */
  const ACTIVATION_THRESHOLD: real := 0.5

  /** Which editor the advanced dialog opens: `IOWindow::Type`. */
  datatype IOType = Input | Output

  /** The mouse button of a release event. */
  datatype MouseButton = LeftButton | MiddleButton | RightButton | OtherButton(code: nat)

  /** A call into a collaborator of the button, in the order it was made. */
  datatype Effect =
    | Detect(devices: seq<string>, defaultDevice: string)  // MappingCommon::DetectExpression
    | OpenEditor(kind: IOType)                              // IOWindow::exec
    | Resolve(expression: string)                           // UpdateSingleControlReference
    | Save(expression: string, range: real)                 // SaveSettings, with the reference it saw
    | Notify(text: string)                                  // ConfigChanged, with the text it set
    | Sample                                                // ControlReference::State
    | DefaultRelease(button: MouseButton)                   // QPushButton::mouseReleaseEvent

  /**
    What the owning widget and the controller interface answer when asked:
    whether every device is mapped at once, the controller's default
    device, and the strings of all connected devices.
  */
  datatype Environment = Environment(mapAllDevices: bool, defaultDevice: string, allDevices: seq<string>)

  /** What the advanced editor leaves in the reference when it closes. */
  datatype EditorOutcome = EditorOutcome(expression: string, range: real)

  /** The devices detection listens to: all of them, or only the default one. */
  function CandidateDevices(env: Environment): seq<string>
  {
    if env.mapAllDevices then env.allDevices else [env.defaultDevice]
  }

  /** The binding of one control slot; its kind is fixed when it is made. */
  class ControlReference {
    var expression: string
    var range: real
    const isInput: bool

    constructor (expression: string, range: real, isInput: bool)
      ensures this.expression == expression && this.range == range && this.isInput == isInput
    {
      this.expression := expression;
      this.range := range;
      this.isInput := isInput;
    }
  }

  class MappingButton {
    const reference: ControlReference
    /** The button's label. */
    var text: string
    /** Whether the button's font is bold (the live "pressed" indication). */
    var bold: bool
    /** Every call into a collaborator so far. */
    var effects: seq<Effect>

    /** The label shows the reference's current expression. */
    predicate InSync()
      reads this, reference
    {
      text == DisplayText.ToDisplayString(reference.expression)
    }

    predicate IsInput()
      reads reference
    {
      reference.isInput
    }

    /**
      A new button shows its reference's expression. The font it starts with
      is a parameter (`parentBold`): the source does not set one.
    */
    constructor (ref: ControlReference, parentBold: bool)
      ensures reference == ref && InSync()
      ensures bold == parentBold && effects == []
    {
      reference := ref;
      text := DisplayText.ToDisplayString(ref.expression);
      bold := parentBold;
      effects := [];
    }

    /** Refreshes the label from the reference. */
    method ConfigChanged()
      modifies this
      ensures InSync() && bold == old(bold)
      ensures effects == old(effects) + [Notify(text)]
    {
      text := DisplayText.ToDisplayString(reference.expression);
      effects := effects + [Notify(text)];
    }

    /**
      Opens the advanced editor on the reference, then refreshes the label
      and saves, in that order, whatever the editor did.
    */
    method AdvancedPressed(editor: EditorOutcome)
      modifies this, reference
      ensures reference.expression == editor.expression && reference.range == editor.range
      ensures InSync() && bold == old(bold)
      ensures effects == old(effects) + [OpenEditor(if reference.isInput then Input else Output),
                                         Notify(DisplayText.ToDisplayString(editor.expression)),
                                         Save(editor.expression, editor.range)]
    {
      effects := effects + [OpenEditor(if reference.isInput then Input else Output)];
      reference.expression := editor.expression;
      reference.range := editor.range;
      ConfigChanged();
      effects := effects + [Save(reference.expression, reference.range)];
    }

    /**
      What a primary click leaves behind, given the trace as it was when the
      click began. An output reference went to the advanced editor and was
      never detected. An input reference was detected over the candidate
      devices; an empty result changed nothing and called nothing further,
      a non-empty one became the expression, which was then re-resolved,
      shown and saved, in that order.
    */
    twostate predicate ClickedFrom(env: Environment, detected: string, editor: EditorOutcome, before: seq<Effect>)
      reads this, reference
    {
      && bold == old(bold)
      && (!reference.isInput ==>
        && reference.expression == editor.expression && reference.range == editor.range
        && InSync()
        && effects == before + [OpenEditor(Output),
                                Notify(DisplayText.ToDisplayString(editor.expression)),
                                Save(editor.expression, editor.range)])
      && (reference.isInput && detected == [] ==>
        && reference.expression == old(reference.expression) && reference.range == old(reference.range)
        && text == old(text)
        && effects == before + [Detect(CandidateDevices(env), env.defaultDevice)])
      && (reference.isInput && detected != [] ==>
        && reference.expression == detected && reference.range == old(reference.range)
        && InSync()
        && effects == before + [Detect(CandidateDevices(env), env.defaultDevice),
                                Resolve(detected),
                                Notify(DisplayText.ToDisplayString(detected)),
                                Save(detected, old(reference.range))])
    }

    /** Primary click, as ClickedFrom describes it. */
    method Clicked(env: Environment, detected: string, editor: EditorOutcome)
      modifies this, reference
      ensures ClickedFrom(env, detected, editor, old(effects))
    {
      if !IsInput() {
        AdvancedPressed(editor);
        return;
      }
      effects := effects + [Detect(CandidateDevices(env), env.defaultDevice)];
      var expression := detected;
      if expression == [] {
        return;
      }
      reference.expression := expression;
      effects := effects + [Resolve(reference.expression)];
      ConfigChanged();
      effects := effects + [Save(reference.expression, reference.range)];
    }

    /**
      Middle click: resets the range to 100 / SLIDER_TICK_COUNT (that is 1)
      and empties the expression, re-resolves, saves, and only then
      refreshes the label, which becomes empty. The resulting reference
      does not depend on the one before, so clearing twice leaves it as
      clearing once (ClearTwice).
    */
    method Clear()
      modifies this, reference
      ensures reference.range == 1.0 && reference.expression == []
      ensures text == [] && InSync() && bold == old(bold)
      ensures effects == old(effects) + [Resolve([]), Save([], 1.0), Notify([])]
    {
      reference.range := 100.0 / SLIDER_TICK_COUNT as real;
      reference.expression := [];
      effects := effects + [Resolve(reference.expression)];
      effects := effects + [Save(reference.expression, reference.range)];
      ConfigChanged();
    }

    /**
      The periodic refresh. In an inactive window nothing is sampled and
      nothing changes. Otherwise the reference's state is sampled and the
      button takes its parent's font, made bold when the state is above
      the activation threshold.
    */
    method UpdateIndicator(activeWindow: bool, state: real, parentBold: bool)
      modifies this
      ensures text == old(text)
      ensures !activeWindow ==> bold == old(bold) && effects == old(effects)
      ensures activeWindow ==> bold == (state > ACTIVATION_THRESHOLD || parentBold)
                               && effects == old(effects) + [Sample]
    {
      if !activeWindow {
        return;
      }
      effects := effects + [Sample];
      var fontBold := parentBold;
      if state > ACTIVATION_THRESHOLD {
        fontBold := true;
      }
      bold := fontBold;
    }

    /**
      Clearing twice leaves the reference and the label as clearing once;
      only the trace shows the second transaction.
    */
    method ClearTwice() returns (ghost onceExpression: string, ghost onceRange: real, ghost onceText: string)
      modifies this, reference
      ensures onceExpression == [] && onceRange == 1.0 && onceText == []
      ensures reference.expression == onceExpression && reference.range == onceRange && text == onceText
      ensures effects == old(effects) + [Resolve([]), Save([], 1.0), Notify([])]
                                      + [Resolve([]), Save([], 1.0), Notify([])]
    {
      Clear();
      onceExpression, onceRange, onceText := reference.expression, reference.range, text;
      Clear();
    }

    /**
      A mouse release: the middle button clears, the right button opens the
      advanced editor, any other button goes to Qt's default handler. For
      the left button that handler emits `clicked` when the press began on
      the button and the release ends on it (`clickEmitted`), and `clicked`
      is connected to Clicked, which then runs within this same release.
    */
    method MouseReleaseEvent(button: MouseButton, clickEmitted: bool, env: Environment, detected: string,
                             editor: EditorOutcome)
      modifies this, reference
      ensures button == MiddleButton ==>
        && reference.range == 1.0 && reference.expression == [] && text == [] && bold == old(bold)
        && effects == old(effects) + [Resolve([]), Save([], 1.0), Notify([])]
      ensures button == RightButton ==>
        && reference.expression == editor.expression && reference.range == editor.range
        && InSync() && bold == old(bold)
        && effects == old(effects) + [OpenEditor(if reference.isInput then Input else Output),
                                      Notify(DisplayText.ToDisplayString(editor.expression)),
                                      Save(editor.expression, editor.range)]
      ensures button == LeftButton && clickEmitted ==>
        ClickedFrom(env, detected, editor, old(effects) + [DefaultRelease(LeftButton)])
      ensures (button == LeftButton && !clickEmitted) || button.OtherButton? ==>
        && reference.expression == old(reference.expression) && reference.range == old(reference.range)
        && text == old(text) && bold == old(bold)
        && effects == old(effects) + [DefaultRelease(button)]
    {
      match button
      case MiddleButton =>
        Clear();
      case RightButton =>
        AdvancedPressed(editor);
      case LeftButton =>
        effects := effects + [DefaultRelease(button)];
        if clickEmitted {
          Clicked(env, detected, editor);
        }
      case OtherButton(_) =>
        effects := effects + [DefaultRelease(button)];
    }
  }
}
